=== FILE: README.md ===
# logme — exception-logging instrumenter, modelled in Dafny

logme patches a Python (2) program as it imports its modules. A finder
appended to `sys.meta_path` (`LoggerImporter`) decides for each requested
module name whether to patch it: it checks exclude tokens, then the include
token; it locates and parses the source; it runs the syntax-tree transformer
`LogExceptions`; then it caches, compiles and executes the result. The
transformer gives every `except` handler it reaches a bound name. It also
puts a fixed logging block in front of the handler's statements. That block
is rendered from a code template holding the log file path (`tree_factory`).

The model has five modules:

- `Wrappers` (`wrappers.dfy`): `Option`, and `Result` for a Python call that
  returns or raises.
- `PyStr` (`pystr.dfy`): the Python string operations the hook relies on.
  These are `needle in hay`, `split('.')` with its inverse `join`, and
  `rpartition('.')`. Each has a reference meaning or round trip proved
  against it.
- `Template` (`template.dfy`): `str.format` with keyword fields and the
  `{{`/`}}` escapes, as `tree_factory` uses it. A field's argument name is
  its text up to the first `.`, `[`, `!` or `:`. It is positional when it
  is empty or all digits. Before any lookup, a name whose leading digits
  spell a number above `PY_SSIZE_T_MAX` (2^63 - 1 on a 64-bit build) raises
  `ValueError: Too many decimal digits in format string`, as CPython's
  `get_integer` does.
- `AstTransformer` (`ast_transformer.dfy`): an abstract statement tree. It
  has `Try` with body, handlers, else and finally, and `Other` with nested
  statement blocks. Handlers are `Handler(name, body)`. The module holds the
  template constant, `tree_factory`, `visit_ExceptHandler` and the
  `NodeTransformer` traversal. Two reference views pin down the traversal:
  the handlers it reaches, in document order, and the tree's skeleton, which
  is the tree with those handlers blanked. A tree is determined by the two
  views together. Visiting keeps the skeleton and rewrites each reached
  handler. So the visited tree is fully characterised.
- `ImportHook` (`import_hook.dfy`): `LoggerImporter.__init__`, `find_module`,
  `LoggerLoader.load_module` and `do_hook`. They are pure functions over a
  state with three parts: the module cache (`sys.modules`), the records
  written to log files (by the hook, and by the module code it runs), and
  `sys.meta_path`. `Host` holds the locator, the
  parser, the compiler and the executor. Their results are inputs to the
  model.

## Model

| member | source | states |
|---|---|---|
| PyStr.ContainsIffOccurs | logme/import_hook.py:69 | the left-to-right scan used for Python's `in` on strings holds exactly when the needle occurs at some position of the name (both directions) |
| PyStr.JoinSplit | logme/import_hook.py:82 | `split('.')` loses nothing: joining its pieces with `.` gives back the name, and no piece contains a dot |
| PyStr.RPartition | logme/import_hook.py:98 | `rpartition('.')` splits at the last dot: the three parts concatenate to the input, the tail has no dot, and a dotless input gives `("", "", s)` |
| PyStr.SplitLastIsRPartitionTail | logme/import_hook.py:82 | the last piece of `split('.')` is the tail of `rpartition('.')`, the text after the last dot |
| Template.FormatLiteral | logme/ast_transformer.py:11 | `str.format` copies brace-free text verbatim in front of whatever the rest formats to |
| Template.ArgName | logme/ast_transformer.py:11 | the argument name looked up for a field is its longest prefix free of `.`, `[`, `!` and `:`; the character after it, if any, is one of those |
| Template.FieldValue | logme/ast_transformer.py:11 | a field yields a value exactly when its conversion syntax is sound, it has no attribute access, index, conversion or spec, it is not positional, and it is a keyword; the value is that keyword's; a sound field whose argument name's leading digits pass `PY_SSIZE_T_MAX` raises `ValueError`; otherwise an empty or all-digit argument name raises `IndexError`, and any other unbound argument name raises `KeyError` for that name |
| Template.FormatOneField | logme/ast_transformer.py:11 | a brace-free field is read whole: its error is raised, or its value is put in front of what the rest formats to |
| Template.ConversionCheckedBeforeLookup | logme/ast_transformer.py:11 | `"{x!}"` raises Python's `ValueError` for a missing conversion character before `x` is looked up |
| Template.GetIntegerOverflowsIffTooLarge | logme/ast_transformer.py:11 | the digit-by-digit overflow test of CPython's `get_integer`, as written, fires exactly when the leading digits of the name spell a number above `PY_SSIZE_T_MAX`; a non-digit ends the scan without error |
| Template.TwentyDigitsTooMany | logme/ast_transformer.py:11 | a name starting with twenty digits, the first not zero, is past `PY_SSIZE_T_MAX` |
| Template.FormatTooManyDigits | logme/ast_transformer.py:11 | a field whose argument name's leading digits pass `PY_SSIZE_T_MAX` raises `ValueError: Too many decimal digits in format string` before any lookup, whatever the keywords |
| Template.OverlongNameRaises | logme/ast_transformer.py:11 | `{99999999999999999999}` and `{99999999999999999999x}` alike, and every brace-free field name starting with twenty digits (the first not zero), raise that `ValueError` |
| Template.FormatField | logme/ast_transformer.py:11 | a keyword field `{name}` with no attribute access, index, conversion or spec, whose leading digits (if any) fit an index, is replaced by its value, and the value is not scanned again |
| Template.FormatMissingArgument | logme/ast_transformer.py:11 | a field whose argument name is not a keyword, not positional and within the index limit raises `KeyError` naming the argument name, not the whole field text |
| Template.FormatPositionalField | logme/ast_transformer.py:11 | a field whose argument name is empty, or all digits spelling at most `PY_SSIZE_T_MAX`, raises `IndexError`, since no positional argument is passed |
| Template.AttributeFieldLooksUpArgument | logme/ast_transformer.py:11 | `{a.b}`, for any argument name `a` not led by a digit and any attribute text `b` without `!`, raises `KeyError` for `a` when `a` is not a keyword, even when `a.b` is one |
| Template.SpecFieldLooksUpArgument | logme/ast_transformer.py:11 | `{x:spec}`, for any argument name `x` not led by a digit and any spec, raises `KeyError` for `x` when `x` is not a keyword, even when `x:spec` is one |
| Template.DigitLedNameIsKeyword | logme/ast_transformer.py:11 | `"{0a}"` is a keyword field, because `0a` is not all digits |
| Template.FormatEscapedPair | logme/ast_transformer.py:11 | the escaped `{{}}` formats to a literal `{}` |
| Template.FormatFieldThenEscapedPair | logme/ast_transformer.py:11-21 | a template shaped like the logging template, with one plain keyword field within the index limit, formats to its texts around the field's value and a literal `{}` |
| AstTransformer.InjectedBlockParsesRenderedTemplate | logme/ast_transformer.py:4-21 | the injected block is the parse of the template with the log path in place of `{log_file}` and `{}` in place of `{{}}`, and all other text unchanged; it depends on the log path alone |
| AstTransformer.RewriteHandler | logme/ast_transformer.py:36-48 | a rewritten handler always has a plain bound name; it keeps an existing plain name; a missing or non-`Name` target becomes `ast_exc_id`; the body is the block followed by the original statements in order, of length the sum of both |
| AstTransformer.RewriteTwice | logme/ast_transformer.py:47-48 | rewriting twice gives `block + block + body` with the same name; it differs from rewriting once whenever the block is non-empty (not idempotent) |
| AstTransformer.VisitStmtsRewritesHandlers | logme/ast_transformer.py:24-50 | the handlers reached in the visited tree are the original reached handlers, each rewritten, in the same document order |
| AstTransformer.VisitStmtsKeepsSkeleton | logme/ast_transformer.py:24-50 | visiting changes nothing outside the reached handlers: the skeleton is kept |
| AstTransformer.SkeletonAndHandlersDetermineStmts | logme/ast_transformer.py:24-50 | two trees with the same skeleton and the same reached handlers are equal, so the two lemmas above fully determine the visited tree |
| AstTransformer.VisitWithoutHandlersIsIdentity | logme/ast_transformer.py:24-50 | a tree with no reachable handler comes back unchanged |
| AstTransformer.NestedHandlerIsNotVisited | logme/ast_transformer.py:36-50 | on the smallest nesting, as an illustration, a handler inside another handler's body is not rewritten: it keeps its name and body while the outer handler is rewritten |
| AstTransformer.LogExceptionsRewritesReachedHandlers | logme/ast_transformer.py:31-50 | the pass fails exactly when some handler is reached and the template does not render and parse; on success the skeleton is kept and every reached handler gets a plain name and the same injected block in front of its untouched body |
| AstTransformer.LogExceptionsTwiceStacksBlocks | logme/ast_transformer.py:47-48 | running the pass on its own output succeeds and leaves two copies of the block in front of every reached handler's original statements |
| ImportHook.NewLoggerImporter | logme/import_hook.py:31-52 | the importer keeps the log file and include token; a missing exclude list becomes the empty list |
| ImportHook.DoHook | logme/import_hook.py:120-132 | `sys.meta_path` grows by exactly one entry at its end, the configured importer; earlier entries, the cache and the log are unchanged |
| ImportHook.ExcludedIffSomeTokenOccurs | logme/import_hook.py:68-70 | the exclude loop fires exactly when some exclude token is a substring of the name |
| ImportHook.PassesFiltersMeaning | logme/import_hook.py:68-75 | a name passes the filters exactly when no exclude token is a substring of it and the include token is |
| ImportHook.ExcludeWins | logme/import_hook.py:68-70 | a name containing an exclude token is declined with the state unchanged, even if it contains the include token |
| ImportHook.IncludeMismatchDeclines | logme/import_hook.py:74-75 | a name not containing the include token is declined with the state unchanged |
| ImportHook.EmptyIncludeAcceptsEveryName | logme/import_hook.py:74-75 | with an empty include token only the exclude tokens decide |
| ImportHook.MissingExcludeExcludesNothing | logme/import_hook.py:52 | an importer built without an exclude list excludes nothing; only the include token decides |
| ImportHook.DefaultHookPatchesEveryName | logme/import_hook.py:120-132 | `do_hook()` with its defaults appends an importer that logs to `/dev/stdout` and lets every name through its filters |
| ImportHook.ParentAndLastComponent | logme/import_hook.py:81-98 | the name given to the locator has no dot; a dotted name is the stored `__include__` value, a dot, and that name; an undotted name has an empty `__include__` |
| ImportHook.NoFileDeclines | logme/import_hook.py:81-87 | when the locator finds no file for the last component, the request is declined with the state unchanged |
| ImportHook.NotFoundRaises | logme/import_hook.py:81-82 | when the locator finds nothing, its `ImportError` propagates with the state unchanged |
| ImportHook.BuiltModuleIsCached | logme/import_hook.py:97-99 | once built, the module's cache entry exists whatever the execution does. It is the module `setdefault` hands back: the cached one, namespace included, or a fresh empty one named after the module, with `__include__` set to the text before the last dot and `__file__` set to the located file. That module is cached as it is when compiling fails, and with the namespace execution left when the code ran in it. Other entries and `sys.meta_path` are untouched |
| ImportHook.ExecuteCachesEntry | logme/import_hook.py:97-117 | compiling and executing add exactly the entry for this module: the module `setdefault` hands back (the cached one or a fresh empty one) with the metadata set, unchanged when compiling fails, and with the namespace execution left when the code ran in it |
| ImportHook.ExecuteLogsAtMostOneLine | logme/import_hook.py:103-115 | the log gains the records the module's code wrote, if it ran, and after them at most one record of the hook's own: an `exec failed in <name> : ` line in this importer's log file, only on a decline |
| ImportHook.ExecFailureLogsOneLine | logme/import_hook.py:106-115 | when the module's code raises an `Exception`, after the records the code wrote exactly the line `exec failed in <name> : <message>\n` is appended, the request is declined, and the cache entry stays |
| ImportHook.LoaderReturnsCachedModule | logme/import_hook.py:17-21 | a loader is returned only for a name that passed the filters and was built; its `load_module` returns the cached module for any argument; the code ran to the end, and the log gained only what it wrote |
| ImportHook.ExecOkLoads | logme/import_hook.py:105-117 | when the patched module compiles and its code runs to the end, the result is a loader holding the cached module, whose namespace is what execution left, and the log gains only what the module's code wrote |
| ImportHook.PrepareOutcome | logme/import_hook.py:81-94 | only a missing file stops patching quietly; a missing module, a parse error and a template error each raise with their message; otherwise the located file's transformed parse is built |
| ImportHook.FindModuleOutcome | logme/import_hook.py:54-117 | `find_module` declines exactly when the filters reject the name, no file is found, or the module's code raises an `Exception`; it returns a loader exactly when the code runs to the end; a missing module, a parse, template or compile error, and a `BaseException` from the code propagate with their message |
| ImportHook.FindModuleFrame | logme/import_hook.py:54-117 | `find_module` touches only this module's cache entry, never `sys.meta_path`, and adds to the log only the records the module's code wrote, if it ran, and then at most one failure line, only when it declines; a name failing the filters changes nothing |

## Left out

- Parsing, compiling and executing are the Python runtime's, as are
  `imp.find_module` and reading the file. They are fields of `Host`, and
  their results are inputs. `ast.fix_missing_locations` repairs source
  positions, which the abstract tree does not have, so it is a no-op here.
- The Python behaviour of the injected code (formatting the traceback,
  appending to the file) is not modelled: the block is the parser's opaque
  output. The records the module's code writes while it runs, through the
  injected blocks or otherwise, come back from the executor as `written`.
- Writing the failure line is assumed to succeed: an `IOError` from opening
  the log file in `find_module` is not modelled. The source file object is
  never closed; that is not modelled either.
- Changes the module's code makes to `sys.modules` while it runs are not
  modelled: the executor returns only this module's namespace and the log
  records it wrote. An `import` inside the module adds cache entries, and
  `sys.modules[__name__] = x` replaces the module's own entry. Those
  changes bear on the lemmas below.
- ImportHook.FindModuleFrame: "no entry but this module's changes" assumes
  the module's code leaves the cache alone; its own imports add entries.
- ImportHook.BuiltModuleIsCached: the cached entry after execution is the
  `setdefault` module only if the module's code did not replace its own
  `sys.modules` entry.
- ImportHook.ExecuteCachesEntry: like `BuiltModuleIsCached`, it assumes the
  module's code makes no change to `sys.modules`.
- ImportHook.LoaderReturnsCachedModule: the loader's module is the cached
  one only if the module's code did not replace its own `sys.modules` entry.
- ImportHook.ExecOkLoads: as for `LoaderReturnsCachedModule`, the cache is
  assumed unchanged by the module's code apart from its namespace.
- Python's own import machinery around the finder is not modelled: the
  `sys.modules` lookup before `sys.meta_path`, and the unpatched load that
  follows a decline.
- Names a module binds live in `globals`. Its name, `__include__` and
  `__file__` are separate fields, so module code that rebinds or deletes
  them is not reflected there.
- Template.Format: when a field's argument name is a keyword but the field
  goes on with attribute access, an index, a well-formed conversion (`!r`)
  or a format spec (`:>10`), the model raises an "unsupported field" error. Python would
  apply the access, conversion or spec. The logging template uses none of
  them. An unknown conversion character (other than `r` or `s`) is not
  singled out. A field ends at its first `}`; Python treats a `{` inside a
  field differently (a nested field in a format spec, as in `{x:{w}}`).
  The error messages other than the conversion and digit-overflow errors
  are approximations.
- Template.FieldValue: the digit limit is `PY_SSIZE_T_MAX` of a 64-bit build;
  a 32-bit build's limit of 2^31 - 1 is not modelled.
- Template.AttributeFieldLooksUpArgument: an attribute text holding `!` is
  not covered; such a field may carry a conversion, which the general
  `FormatMissingArgument` handles.
- The include token is a string. `logme/cmd.py` passes a list, and Python
  would raise `TypeError` on it. `logme/cmd.py` (argument parsing) and
  `setup.py` are not part of this model.
- Interleaving of concurrent log writers is not modelled.

Three behaviours of the code are worth stating plainly, and the model
follows them:

- `imp.find_module` raises `ImportError` when it finds nothing, and the
  error propagates out of `find_module`. Only a `None` file (a package
  directory or a built-in) is a silent decline.
- Template and parse errors propagate as whatever `str.format` or the
  parser raise. The hook has no error kind of its own.
- The hook has no option that limits patching to packages:
  `logme/import_hook.py:72-73` is only a comment above the include check.

=== FILE: ast_transformer.dfy ===
/** The handler-rewriting pass: a syntax-tree transformer that prepends a
    logging block to every `except` handler it visits and gives each such
    handler a bound name. */
module AstTransformer {
  import opened Wrappers
  import Template

  /** The target an `except E, target:` clause binds. Only a plain name has
      an `id`; tuples, attributes and subscripts are other patterns. */
  datatype Target = Name(id: string) | Pattern(text: string)

  /** Statements, abstracted to what the traversal can tell apart: a `try`
      statement with its handlers, and every other statement with the
      statement lists nested in it (the bodies of `if`, `for`, `def`, ...). */
  datatype Stmt =
    | Try(body: seq<Stmt>, handlers: seq<Handler>, orelse: seq<Stmt>, finalbody: seq<Stmt>)
    | Other(kind: string, blocks: seq<Block>)

  /** One statement-list field of a statement, such as the body of an `if`. */
  datatype Block = Block(stmts: seq<Stmt>)

  /** An `except` clause: its optional bound target and its body. */
  datatype Handler = Handler(name: Option<Target>, body: seq<Stmt>)

  /** The parser: `ast.parse(source).body`, or the `SyntaxError` it raises. */
  type Parser = string -> Result<seq<Stmt>>

  /** The name given to a handler that has no plain name of its own. */
  const ReservedName: string := "ast_exc_id"

  /** The logging template, cut at its placeholders: a `{log_file}` field and
      an escaped `{{}}`. Joined, the pieces are the template text. */
  const LogCodeHead: string :=
    "import traceback\n" + "val = traceback.format_exc()\n" + "with open('"
  const LogCodeMiddle: string :=
    "', 'a') as plz_be_a_free_name:\n" + "    plz_be_a_free_name.write(" + "'New caught error : \\n "
  const LogCodeTail: string := " \\n'.format(val))"
  const LogCode: string := LogCodeHead + ("{log_file}" + (LogCodeMiddle + ("{{}}" + LogCodeTail)))

  /** `tree_factory`: fills the template's fields from `ids` and parses the
      result into a statement list; a formatting or parse error is raised. */
  function TreeFactory(template: string, ids: map<string, string>, parse: Parser): Result<seq<Stmt>>
  {
    match Template.Format(template, ids)
    case Raised(e) => Raised(e)
    case Ok(source) => parse(source)
  }

  /** The statements injected into every handler for log destination `logFile`. */
  function InjectedBlock(logFile: string, parse: Parser): Result<seq<Stmt>>
  {
    TreeFactory(LogCode, map["log_file" := logFile], parse)
  }

  /** The rendered template is the template text with the path in place of
      `{log_file}` and `{}` in place of `{{}}`; nothing else changes. */
  lemma InjectedBlockParsesRenderedTemplate(logFile: string, parse: Parser)
    ensures InjectedBlock(logFile, parse)
         == parse(LogCodeHead + (logFile + (LogCodeMiddle + ("{}" + LogCodeTail))))
  {
    HeadHasNoBraces();
    MiddleHasNoBraces();
    TailHasNoBraces();
    var ids := map["log_file" := logFile];
    assert !('0' <= "log_file"[0] <= '9');
    Template.FormatFieldThenEscapedPair(LogCodeHead, "log_file", LogCodeMiddle, LogCodeTail, ids);
    assert "{log_file}" == "{" + "log_file" + "}";
  }

  lemma HeadHasNoBraces()
    ensures Template.NoBraces(LogCodeHead)
  {
  }

  lemma MiddleHasNoBraces()
    ensures Template.NoBraces(LogCodeMiddle)
  {
    assert Template.NoBraces("', 'a') as plz_be_a_free_name:\n");
    assert Template.NoBraces("    plz_be_a_free_name.write(");
    assert Template.NoBraces("'New caught error : \\n ");
    Template.NoBracesConcat("', 'a') as plz_be_a_free_name:\n", "    plz_be_a_free_name.write(");
    Template.NoBracesConcat("', 'a') as plz_be_a_free_name:\n" + "    plz_be_a_free_name.write(",
                            "'New caught error : \\n ");
  }

  lemma TailHasNoBraces()
    ensures Template.NoBraces(LogCodeTail)
  {
  }

  /** True when the handler is bound to a plain name, so `node.name.id` exists. */
  predicate HasPlainName(name: Option<Target>)
  {
    name.Some? && name.value.Name?
  }

  /** `visit_ExceptHandler`: keeps a plain bound name or binds the reserved
      one, and puts `block` in front of the handler's own statements. The
      handler's body is not visited. */
  function RewriteHandler(h: Handler, block: seq<Stmt>): (r: Handler)
    ensures HasPlainName(r.name)
    ensures HasPlainName(h.name) ==> r.name == h.name
    ensures !HasPlainName(h.name) ==> r.name == Some(Name(ReservedName))
    ensures |r.body| == |block| + |h.body|
    ensures r.body[..|block|] == block && r.body[|block|..] == h.body
  {
    var name := if HasPlainName(h.name) then h.name else Some(Name(ReservedName));
    Handler(name, block + h.body)
  }

  /** Rewriting a handler a second time puts a second copy of the block in
      front of the first: the pass is not idempotent. */
  lemma RewriteTwice(h: Handler, block: seq<Stmt>)
    ensures RewriteHandler(RewriteHandler(h, block), block).name == RewriteHandler(h, block).name
    ensures RewriteHandler(RewriteHandler(h, block), block).body == block + block + h.body
    ensures |block| > 0 ==> RewriteHandler(RewriteHandler(h, block), block) != RewriteHandler(h, block)
  {
    var once := RewriteHandler(h, block);
    var twice := RewriteHandler(once, block);
    assert twice.body == block + (block + h.body);
    if |block| > 0 {
      assert |twice.body| != |once.body|;
    }
  }

  /** The handlers of a `try` statement, each rewritten. */
  function RewriteHandlers(hs: seq<Handler>, block: seq<Stmt>): (r: seq<Handler>)
    ensures |r| == |hs|
    ensures forall i :: 0 <= i < |hs| ==> r[i] == RewriteHandler(hs[i], block)
  {
    if |hs| == 0 then [] else [RewriteHandler(hs[0], block)] + RewriteHandlers(hs[1..], block)
  }

  /** `NodeTransformer.generic_visit` over a statement list: every statement
      is visited in order and replaced by its visited form. */
  function VisitStmts(ss: seq<Stmt>, block: seq<Stmt>): (r: seq<Stmt>)
    ensures |r| == |ss|
    decreases ss
  {
    if |ss| == 0 then [] else [VisitStmt(ss[0], block)] + VisitStmts(ss[1..], block)
  }

  /** Visiting one statement: the fields of a `try` in the order body,
      handlers, else, finally; the nested lists of any other statement.
      Handlers go to `visit_ExceptHandler`, which does not descend. */
  function VisitStmt(s: Stmt, block: seq<Stmt>): (r: Stmt)
    decreases s
  {
    match s
    case Try(body, hs, orelse, fin) =>
      Try(VisitStmts(body, block), RewriteHandlers(hs, block),
          VisitStmts(orelse, block), VisitStmts(fin, block))
    case Other(kind, blocks) =>
      Other(kind, VisitBlocks(blocks, block))
  }

  function VisitBlocks(bs: seq<Block>, block: seq<Stmt>): (r: seq<Block>)
    ensures |r| == |bs|
    decreases bs
  {
    if |bs| == 0 then [] else [Block(VisitStmts(bs[0].stmts, block))] + VisitBlocks(bs[1..], block)
  }

  /** The handlers the traversal reaches, in document order. A handler's own
      body is not searched, since `visit_ExceptHandler` does not descend. */
  function HandlersOfStmts(ss: seq<Stmt>): seq<Handler>
    decreases ss
  {
    if |ss| == 0 then [] else HandlersOfStmt(ss[0]) + HandlersOfStmts(ss[1..])
  }

  function HandlersOfStmt(s: Stmt): seq<Handler>
    decreases s
  {
    match s
    case Try(body, hs, orelse, fin) =>
      HandlersOfStmts(body) + hs + HandlersOfStmts(orelse) + HandlersOfStmts(fin)
    case Other(_, blocks) => HandlersOfBlocks(blocks)
  }

  function HandlersOfBlocks(bs: seq<Block>): seq<Handler>
    decreases bs
  {
    if |bs| == 0 then [] else HandlersOfStmts(bs[0].stmts) + HandlersOfBlocks(bs[1..])
  }

  /** The skeleton of a tree: every reached handler blanked out, everything
      else kept. Two trees with the same skeleton differ at most in the
      handlers the traversal reaches. */
  function EraseStmts(ss: seq<Stmt>): seq<Stmt>
    decreases ss
  {
    if |ss| == 0 then [] else [EraseStmt(ss[0])] + EraseStmts(ss[1..])
  }

  function EraseStmt(s: Stmt): Stmt
    decreases s
  {
    match s
    case Try(body, hs, orelse, fin) =>
      Try(EraseStmts(body), seq(|hs|, _ => Handler(None, [])), EraseStmts(orelse), EraseStmts(fin))
    case Other(kind, blocks) => Other(kind, EraseBlocks(blocks))
  }

  function EraseBlocks(bs: seq<Block>): seq<Block>
    decreases bs
  {
    if |bs| == 0 then [] else [Block(EraseStmts(bs[0].stmts))] + EraseBlocks(bs[1..])
  }

  lemma RewriteHandlersAppend(a: seq<Handler>, b: seq<Handler>, block: seq<Stmt>)
    ensures RewriteHandlers(a + b, block) == RewriteHandlers(a, block) + RewriteHandlers(b, block)
  {
    var l := RewriteHandlers(a + b, block);
    var r := RewriteHandlers(a, block) + RewriteHandlers(b, block);
    assert |l| == |r|;
    forall i | 0 <= i < |l| ensures l[i] == r[i] {
      if i < |a| {
        assert (a + b)[i] == a[i];
      } else {
        assert (a + b)[i] == b[i - |a|];
      }
    }
  }

  /** The handlers reached in the visited tree are exactly the handlers
      reached in the original tree, each rewritten, in the same order. */
  lemma {:induction false} VisitStmtsRewritesHandlers(ss: seq<Stmt>, block: seq<Stmt>)
    ensures HandlersOfStmts(VisitStmts(ss, block)) == RewriteHandlers(HandlersOfStmts(ss), block)
    decreases ss
  {
    if |ss| > 0 {
      var v := VisitStmts(ss, block);
      assert v[0] == VisitStmt(ss[0], block) && v[1..] == VisitStmts(ss[1..], block);
      VisitStmtRewritesHandlers(ss[0], block);
      VisitStmtsRewritesHandlers(ss[1..], block);
      RewriteHandlersAppend(HandlersOfStmt(ss[0]), HandlersOfStmts(ss[1..]), block);
    }
  }

  lemma {:induction false} VisitStmtRewritesHandlers(s: Stmt, block: seq<Stmt>)
    ensures HandlersOfStmt(VisitStmt(s, block)) == RewriteHandlers(HandlersOfStmt(s), block)
    decreases s
  {
    match s
    case Try(body, hs, orelse, fin) =>
      VisitStmtsRewritesHandlers(body, block);
      VisitStmtsRewritesHandlers(orelse, block);
      VisitStmtsRewritesHandlers(fin, block);
      var hb, ho, hf := HandlersOfStmts(body), HandlersOfStmts(orelse), HandlersOfStmts(fin);
      RewriteHandlersAppend(hb, hs, block);
      RewriteHandlersAppend(hb + hs, ho, block);
      RewriteHandlersAppend(hb + hs + ho, hf, block);
    case Other(kind, blocks) =>
      VisitBlocksRewritesHandlers(blocks, block);
  }

  lemma {:induction false} VisitBlocksRewritesHandlers(bs: seq<Block>, block: seq<Stmt>)
    ensures HandlersOfBlocks(VisitBlocks(bs, block)) == RewriteHandlers(HandlersOfBlocks(bs), block)
    decreases bs
  {
    if |bs| > 0 {
      var v := VisitBlocks(bs, block);
      assert v[0] == Block(VisitStmts(bs[0].stmts, block)) && v[1..] == VisitBlocks(bs[1..], block);
      VisitStmtsRewritesHandlers(bs[0].stmts, block);
      VisitBlocksRewritesHandlers(bs[1..], block);
      RewriteHandlersAppend(HandlersOfStmts(bs[0].stmts), HandlersOfBlocks(bs[1..]), block);
    }
  }

  /** Visiting changes nothing but the reached handlers: the skeleton is kept. */
  lemma {:induction false} VisitStmtsKeepsSkeleton(ss: seq<Stmt>, block: seq<Stmt>)
    ensures EraseStmts(VisitStmts(ss, block)) == EraseStmts(ss)
    decreases ss
  {
    if |ss| > 0 {
      var v := VisitStmts(ss, block);
      assert v[0] == VisitStmt(ss[0], block) && v[1..] == VisitStmts(ss[1..], block);
      VisitStmtKeepsSkeleton(ss[0], block);
      VisitStmtsKeepsSkeleton(ss[1..], block);
    }
  }

  lemma {:induction false} VisitStmtKeepsSkeleton(s: Stmt, block: seq<Stmt>)
    ensures EraseStmt(VisitStmt(s, block)) == EraseStmt(s)
    decreases s
  {
    match s
    case Try(body, hs, orelse, fin) =>
      VisitStmtsKeepsSkeleton(body, block);
      VisitStmtsKeepsSkeleton(orelse, block);
      VisitStmtsKeepsSkeleton(fin, block);
    case Other(kind, blocks) =>
      VisitBlocksKeepsSkeleton(blocks, block);
  }

  lemma {:induction false} VisitBlocksKeepsSkeleton(bs: seq<Block>, block: seq<Stmt>)
    ensures EraseBlocks(VisitBlocks(bs, block)) == EraseBlocks(bs)
    decreases bs
  {
    if |bs| > 0 {
      var v := VisitBlocks(bs, block);
      assert v[0] == Block(VisitStmts(bs[0].stmts, block)) && v[1..] == VisitBlocks(bs[1..], block);
      VisitStmtsKeepsSkeleton(bs[0].stmts, block);
      VisitBlocksKeepsSkeleton(bs[1..], block);
    }
  }

  lemma SplitAppend<T>(a: seq<T>, b: seq<T>, c: seq<T>, d: seq<T>)
    requires a + b == c + d && |a| == |c|
    ensures a == c && b == d
  {
    assert a == (a + b)[..|a|] && c == (c + d)[..|c|];
    assert b == (a + b)[|a|..] && d == (c + d)[|c|..];
  }

  /** Trees with the same skeleton reach the same number of handlers. */
  lemma {:induction false} SkeletonFixesHandlerCountStmts(x: seq<Stmt>, y: seq<Stmt>)
    requires EraseStmts(x) == EraseStmts(y)
    ensures |HandlersOfStmts(x)| == |HandlersOfStmts(y)|
    decreases x
  {
    if |x| > 0 {
      assert |y| > 0;
      var ex, ey := EraseStmts(x), EraseStmts(y);
      assert ex[0] == ey[0] && ex[1..] == ey[1..];
      SkeletonFixesHandlerCountStmt(x[0], y[0]);
      SkeletonFixesHandlerCountStmts(x[1..], y[1..]);
    }
  }

  lemma {:induction false} SkeletonFixesHandlerCountStmt(x: Stmt, y: Stmt)
    requires EraseStmt(x) == EraseStmt(y)
    ensures |HandlersOfStmt(x)| == |HandlersOfStmt(y)|
    decreases x
  {
    match x
    case Try(body, hs, orelse, fin) =>
      assert |seq(|hs|, _ => Handler(None, []))| == |y.handlers|;
      SkeletonFixesHandlerCountStmts(body, y.body);
      SkeletonFixesHandlerCountStmts(orelse, y.orelse);
      SkeletonFixesHandlerCountStmts(fin, y.finalbody);
    case Other(kind, blocks) =>
      SkeletonFixesHandlerCountBlocks(blocks, y.blocks);
  }

  lemma {:induction false} SkeletonFixesHandlerCountBlocks(x: seq<Block>, y: seq<Block>)
    requires EraseBlocks(x) == EraseBlocks(y)
    ensures |HandlersOfBlocks(x)| == |HandlersOfBlocks(y)|
    decreases x
  {
    if |x| > 0 {
      assert |y| > 0;
      var ex, ey := EraseBlocks(x), EraseBlocks(y);
      assert ex[0] == ey[0] && ex[1..] == ey[1..];
      SkeletonFixesHandlerCountStmts(x[0].stmts, y[0].stmts);
      SkeletonFixesHandlerCountBlocks(x[1..], y[1..]);
    }
  }

  /** A tree is determined by its skeleton and its reached handlers. With
      the two lemmas above this pins the visited tree down completely: it is
      the one tree with the original skeleton whose reached handlers are the
      original ones rewritten. */
  lemma {:induction false} SkeletonAndHandlersDetermineStmts(x: seq<Stmt>, y: seq<Stmt>)
    requires EraseStmts(x) == EraseStmts(y)
    requires HandlersOfStmts(x) == HandlersOfStmts(y)
    ensures x == y
    decreases x
  {
    if |x| > 0 {
      assert |y| > 0;
      var ex, ey := EraseStmts(x), EraseStmts(y);
      assert ex[0] == ey[0] && ex[1..] == ey[1..];
      SkeletonFixesHandlerCountStmt(x[0], y[0]);
      SplitAppend(HandlersOfStmt(x[0]), HandlersOfStmts(x[1..]),
                  HandlersOfStmt(y[0]), HandlersOfStmts(y[1..]));
      SkeletonAndHandlersDetermineStmt(x[0], y[0]);
      SkeletonAndHandlersDetermineStmts(x[1..], y[1..]);
      assert x == [x[0]] + x[1..] && y == [y[0]] + y[1..];
    }
  }

  lemma {:induction false} SkeletonAndHandlersDetermineStmt(x: Stmt, y: Stmt)
    requires EraseStmt(x) == EraseStmt(y)
    requires HandlersOfStmt(x) == HandlersOfStmt(y)
    ensures x == y
    decreases x
  {
    match x
    case Try(body, hs, orelse, fin) =>
      var body', hs', orelse', fin' := y.body, y.handlers, y.orelse, y.finalbody;
      assert |seq(|hs|, _ => Handler(None, []))| == |hs'|;
      SkeletonFixesHandlerCountStmts(body, body');
      SkeletonFixesHandlerCountStmts(orelse, orelse');
      SkeletonFixesHandlerCountStmts(fin, fin');
      var hb, ho, hf := HandlersOfStmts(body), HandlersOfStmts(orelse), HandlersOfStmts(fin);
      var hb', ho', hf' := HandlersOfStmts(body'), HandlersOfStmts(orelse'), HandlersOfStmts(fin');
      SplitAppend(hb + hs + ho, hf, hb' + hs' + ho', hf');
      SplitAppend(hb + hs, ho, hb' + hs', ho');
      SplitAppend(hb, hs, hb', hs');
      SkeletonAndHandlersDetermineStmts(body, body');
      SkeletonAndHandlersDetermineStmts(orelse, orelse');
      SkeletonAndHandlersDetermineStmts(fin, fin');
    case Other(kind, blocks) =>
      SkeletonAndHandlersDetermineBlocks(blocks, y.blocks);
  }

  lemma {:induction false} SkeletonAndHandlersDetermineBlocks(x: seq<Block>, y: seq<Block>)
    requires EraseBlocks(x) == EraseBlocks(y)
    requires HandlersOfBlocks(x) == HandlersOfBlocks(y)
    ensures x == y
    decreases x
  {
    if |x| > 0 {
      assert |y| > 0;
      var ex, ey := EraseBlocks(x), EraseBlocks(y);
      assert ex[0] == ey[0] && ex[1..] == ey[1..];
      SkeletonFixesHandlerCountStmts(x[0].stmts, y[0].stmts);
      SplitAppend(HandlersOfStmts(x[0].stmts), HandlersOfBlocks(x[1..]),
                  HandlersOfStmts(y[0].stmts), HandlersOfBlocks(y[1..]));
      SkeletonAndHandlersDetermineStmts(x[0].stmts, y[0].stmts);
      SkeletonAndHandlersDetermineBlocks(x[1..], y[1..]);
      assert x == [x[0]] + x[1..] && y == [y[0]] + y[1..];
    }
  }

  /** A tree that reaches no handler is left exactly as it was. */
  lemma VisitWithoutHandlersIsIdentity(ss: seq<Stmt>, block: seq<Stmt>)
    requires HandlersOfStmts(ss) == []
    ensures VisitStmts(ss, block) == ss
  {
    VisitStmtsKeepsSkeleton(ss, block);
    VisitStmtsRewritesHandlers(ss, block);
    SkeletonAndHandlersDetermineStmts(VisitStmts(ss, block), ss);
  }

  /** An illustration on the smallest nesting: a handler inside another
      handler's body is not reached, so the outer one is rewritten and the
      inner one keeps its name and body. The general fact is
      `VisitStmtsRewritesHandlers` with `RewriteHandler`'s clause that the
      original body follows the block unchanged. */
  lemma NestedHandlerIsNotVisited(inner: Handler, block: seq<Stmt>)
    ensures var outer := Handler(None, [Try([], [inner], [], [])]);
            VisitStmts([Try([], [outer], [], [])], block)
            == [Try([], [Handler(Some(Name(ReservedName)), block + [Try([], [inner], [], [])])], [], [])]
  {
    var outer := Handler(None, [Try([], [inner], [], [])]);
    var s := Try([], [outer], [], []);
    assert RewriteHandlers([outer], block) == [RewriteHandler(outer, block)];
    assert VisitStmt(s, block) == Try([], [RewriteHandler(outer, block)], [], []);
    assert [s][1..] == [];
  }

  /** `LogExceptions(package, log_file).visit(tree)` on a module body.
      `tree_factory` runs at every reached handler and yields the same block
      each time, so a tree that reaches no handler never calls it and is
      returned as is; otherwise a template error is raised, or every reached
      handler is rewritten with the block. */
  function LogExceptions(tree: seq<Stmt>, logFile: string, parse: Parser): Result<seq<Stmt>>
  {
    if HandlersOfStmts(tree) == [] then Ok(tree)
    else
      match InjectedBlock(logFile, parse)
      case Raised(e) => Raised(e)
      case Ok(block) => Ok(VisitStmts(tree, block))
  }

  /** What the pass does to a module body: it fails only when there is a
      handler to rewrite and the template does not render and parse; on
      success the skeleton is unchanged, and each reached handler is the
      original with a plain bound name and the one injected block in front of
      its untouched original statements. */
  lemma LogExceptionsRewritesReachedHandlers(tree: seq<Stmt>, logFile: string, parse: Parser)
    ensures var r := LogExceptions(tree, logFile, parse);
            r.Raised? <==> HandlersOfStmts(tree) != [] && InjectedBlock(logFile, parse).Raised?
    ensures var r := LogExceptions(tree, logFile, parse);
            r.Ok? ==> EraseStmts(r.value) == EraseStmts(tree)
                      && |HandlersOfStmts(r.value)| == |HandlersOfStmts(tree)|
    ensures var r := LogExceptions(tree, logFile, parse);
            r.Ok? && HandlersOfStmts(tree) != [] ==>
              var block := InjectedBlock(logFile, parse).value;
              var before, after := HandlersOfStmts(tree), HandlersOfStmts(r.value);
              forall i :: 0 <= i < |before| && i < |after| ==>
                && HasPlainName(after[i].name)
                && (HasPlainName(before[i].name) ==> after[i].name == before[i].name)
                && (!HasPlainName(before[i].name) ==> after[i].name == Some(Name(ReservedName)))
                && after[i].body == block + before[i].body
  {
    var r := LogExceptions(tree, logFile, parse);
    if r.Ok? && HandlersOfStmts(tree) != [] {
      var block := InjectedBlock(logFile, parse).value;
      VisitStmtsKeepsSkeleton(tree, block);
      VisitStmtsRewritesHandlers(tree, block);
    }
  }

  /** Running the pass on its own output stacks a second block in front of
      the first in every reached handler. */
  lemma LogExceptionsTwiceStacksBlocks(tree: seq<Stmt>, logFile: string, parse: Parser)
    requires LogExceptions(tree, logFile, parse).Ok?
    requires HandlersOfStmts(tree) != []
    ensures var once := LogExceptions(tree, logFile, parse).value;
            var twice := LogExceptions(once, logFile, parse);
            var block := InjectedBlock(logFile, parse).value;
            && twice.Ok?
            && |HandlersOfStmts(twice.value)| == |HandlersOfStmts(tree)|
            && forall i :: 0 <= i < |HandlersOfStmts(tree)| ==>
                 HandlersOfStmts(twice.value)[i].body == block + block + HandlersOfStmts(tree)[i].body
  {
    var block := InjectedBlock(logFile, parse).value;
    var once := VisitStmts(tree, block);
    VisitStmtsRewritesHandlers(tree, block);
    assert HandlersOfStmts(once) != [];
    var twice := VisitStmts(once, block);
    VisitStmtsRewritesHandlers(once, block);
    forall i | 0 <= i < |HandlersOfStmts(tree)|
      ensures HandlersOfStmts(twice)[i].body == block + block + HandlersOfStmts(tree)[i].body
    {
      RewriteTwice(HandlersOfStmts(tree)[i], block);
    }
  }
}

=== FILE: import_hook.dfy ===
/** The import hook: a finder appended to `sys.meta_path` that decides, per
    requested module, whether to patch it, and if so locates, parses,
    transforms, compiles and executes it into the module cache. Locating,
    parsing, compiling and executing are the host's; they are parameters. */
module ImportHook {
  import opened Wrappers
  import PyStr
  import AstTransformer

  /** A module object: its name, the `__include__` and `__file__` attributes
      the hook sets, and every other name its execution binds. */
  datatype Module = Module(name: string, includeAttr: Option<string>, file: Option<string>,
                           globals: map<string, string>)

  /** `imp.new_module(fullname)`: an empty module of that name. */
  function NewModule(fullname: string): Module
  {
    Module(fullname, None, None, map[])
  }

  /** A configured `LoggerImporter`: the log destination, the include token
      and the exclude tokens. */
  datatype LoggerImporter = LoggerImporter(logFile: string, includeToken: string, exclude: seq<string>)

  /** An entry of `sys.meta_path`: this hook, or a finder it does not know. */
  datatype Finder = Logger(importer: LoggerImporter) | OtherFinder(description: string)

  /** One write to a log destination. */
  datatype LogRecord = LogRecord(file: string, text: string)

  /** What the hook can observe and change: the module cache
      (`sys.modules`), the records written to log files, by the hook and by
      the module code it runs, and `sys.meta_path`. */
  datatype State = State(modules: map<string, Module>, log: seq<LogRecord>, metaPath: seq<Finder>)

  /** What `imp.find_module(name, path)` finds: an open source file, no file
      (a package directory or a built-in), or nothing (it raises). */
  datatype Location = SourceFile(fileName: string, source: string) | NoFile | NotFound

  /** A compiled module: the transformed tree, tagged with its file name. */
  datatype Code = Code(tree: seq<AstTransformer.Stmt>, fileName: string)

  /** How executing a module's code ends: normally; by raising an
      `Exception`; or by raising a `BaseException` that is not one (such as
      `SystemExit`). Each carries the module's namespace as execution left
      it, with names bound, rebound or deleted up to that point, and the log
      records the code wrote while it ran, such as those of the injected
      blocks of the handlers it went through. */
  datatype ExecOutcome =
    | ExecOk(globals: map<string, string>, written: seq<LogRecord>)
    | ExecFailed(globals: map<string, string>, written: seq<LogRecord>, message: string)
    | ExecAborted(globals: map<string, string>, written: seq<LogRecord>, message: string)

  /** The host operations the hook calls. `compile` gives the error it raises,
      if any. */
  datatype Host = Host(
    locate: (string, Option<seq<string>>) -> Location,
    parse: AstTransformer.Parser,
    compile: Code -> Option<string>,
    exec: (Code, Module) -> ExecOutcome)

  /** `LoggerLoader`: holds the module the hook has already built. */
  datatype LoggerLoader = LoggerLoader(held: Module)
  {
    /** `load_module` ignores its argument and hands back the held module. */
    function LoadModule(fullname: string): Module
    {
      held
    }
  }

  /** What `find_module` returns: `None` (the next finder is tried), a loader,
      or an exception that propagates to the importer. */
  datatype FindResult = Decline | Load(loader: LoggerLoader) | Error(message: string)

  /** A call's result together with the state it leaves. */
  datatype Step = Step(result: FindResult, state: State)

  const DefaultLogFile: string := "/dev/stdout"

  /** `LoggerImporter.__init__`: a missing exclude list means no exclusions. */
  function NewLoggerImporter(logFile: string, includeToken: string, exclude: Option<seq<string>>): (imp: LoggerImporter)
    ensures imp.logFile == logFile && imp.includeToken == includeToken
    ensures exclude.None? ==> imp.exclude == []
    ensures exclude.Some? ==> imp.exclude == exclude.value
  {
    LoggerImporter(logFile, includeToken, if exclude.Some? then exclude.value else [])
  }

  /** `do_hook`: appends one configured importer to the end of `sys.meta_path`. */
  function DoHook(st: State, logFile: string, includeToken: string, exclude: Option<seq<string>>): (st': State)
    ensures |st'.metaPath| == |st.metaPath| + 1
    ensures st'.metaPath[..|st.metaPath|] == st.metaPath
    ensures st'.metaPath[|st.metaPath|] == Logger(NewLoggerImporter(logFile, includeToken, exclude))
    ensures st'.modules == st.modules && st'.log == st.log
  {
    st.(metaPath := st.metaPath + [Logger(NewLoggerImporter(logFile, includeToken, exclude))])
  }

  /** The `for forbidden_name in self.exclude` loop: some token is a
      substring of the name. */
  predicate Excluded(exclude: seq<string>, fullname: string)
    decreases |exclude|
  {
    |exclude| > 0 && (PyStr.Contains(fullname, exclude[0]) || Excluded(exclude[1..], fullname))
  }

  lemma {:induction false} ExcludedIffSomeTokenOccurs(exclude: seq<string>, fullname: string)
    ensures Excluded(exclude, fullname)
        <==> exists k :: 0 <= k < |exclude| && PyStr.Occurs(exclude[k], fullname)
    decreases |exclude|
  {
    if |exclude| > 0 {
      PyStr.ContainsIffOccurs(fullname, exclude[0]);
      ExcludedIffSomeTokenOccurs(exclude[1..], fullname);
      if exists k :: 0 <= k < |exclude| && PyStr.Occurs(exclude[k], fullname) {
        var k :| 0 <= k < |exclude| && PyStr.Occurs(exclude[k], fullname);
        if k > 0 {
          assert exclude[1..][k - 1] == exclude[k];
        }
      }
      if exists k :: 0 <= k < |exclude[1..]| && PyStr.Occurs(exclude[1..][k], fullname) {
        var k :| 0 <= k < |exclude[1..]| && PyStr.Occurs(exclude[1..][k], fullname);
        assert exclude[k + 1] == exclude[1..][k];
      }
    }
  }

  /** The two filters of `find_module`, exclude first. */
  predicate PassesFilters(imp: LoggerImporter, fullname: string)
  {
    !Excluded(imp.exclude, fullname) && PyStr.Contains(fullname, imp.includeToken)
  }

  /** `fullname.split(".")[-1]`: the name handed to the locator. */
  function LastComponent(fullname: string): string
  {
    var parts := PyStr.Split(fullname, '.');
    parts[|parts| - 1]
  }

  /** `fullname.rpartition('.')[0]`: the value stored as `__include__`. */
  function ParentName(fullname: string): string
  {
    PyStr.RPartition(fullname, '.').0
  }

  /** The located name and the stored parent name split the full name at its
      last dot; an undotted name is its own last component with an empty
      parent. */
  lemma ParentAndLastComponent(fullname: string)
    ensures '.' !in LastComponent(fullname)
    ensures '.' in fullname ==> fullname == ParentName(fullname) + "." + LastComponent(fullname)
    ensures '.' !in fullname ==> ParentName(fullname) == "" && LastComponent(fullname) == fullname
  {
    PyStr.SplitLastIsRPartitionTail(fullname, '.');
  }

  /** How far the locate, read, parse and transform steps get. */
  datatype Prepared = NotPatched | PrepareError(message: string)
                    | Ready(fileName: string, tree: seq<AstTransformer.Stmt>)

  /** The locator is asked for the last component only; no file means
      decline, no module means `ImportError`; parse and template errors
      propagate. Nothing is cached at this point. */
  function Prepare(imp: LoggerImporter, fullname: string, path: Option<seq<string>>, host: Host): Prepared
  {
    var name := LastComponent(fullname);
    match host.locate(name, path)
    case NotFound => PrepareError("ImportError: No module named " + name)
    case NoFile => NotPatched
    case SourceFile(fileName, source) =>
      match host.parse(source)
      case Raised(e) => PrepareError(e)
      case Ok(tree) =>
        match AstTransformer.LogExceptions(tree, imp.logFile, host.parse)
        case Raised(e) => PrepareError(e)
        case Ok(patched) => Ready(fileName, patched)
  }

  /** `sys.modules.setdefault(fullname, imp.new_module(fullname))` followed by
      setting `__include__` and `__file__`. */
  function CacheEntry(modules: map<string, Module>, fullname: string, fileName: string): Module
  {
    var base := if fullname in modules then modules[fullname] else NewModule(fullname);
    base.(includeAttr := Some(ParentName(fullname)), file := Some(fileName))
  }

  /** The line written when the module's own code raises. */
  function ExecFailureLine(fullname: string, message: string): string
  {
    "exec failed in " + fullname + " : " + message + "\n"
  }

  /** The second half of `find_module`, once the module is built: cache the
      entry, compile, execute; an `Exception` from the module's code is
      logged and declined, anything else propagates. */
  function Execute(imp: LoggerImporter, st: State, fullname: string, fileName: string,
                   patched: seq<AstTransformer.Stmt>, host: Host): Step
  {
    var entry := CacheEntry(st.modules, fullname, fileName);
    var code := Code(patched, fileName);
    match host.compile(code)
    case Some(e) => Step(Error(e), st.(modules := st.modules[fullname := entry]))
    case None =>
      match host.exec(code, entry)
      case ExecOk(g, w) =>
        var m := entry.(globals := g);
        Step(Load(LoggerLoader(m)), st.(modules := st.modules[fullname := m], log := st.log + w))
      case ExecFailed(g, w, msg) =>
        var m := entry.(globals := g);
        Step(Decline, st.(modules := st.modules[fullname := m],
                          log := st.log + w + [LogRecord(imp.logFile, ExecFailureLine(fullname, msg))]))
      case ExecAborted(g, w, msg) =>
        var m := entry.(globals := g);
        Step(Error(msg), st.(modules := st.modules[fullname := m], log := st.log + w))
  }

  /** `LoggerImporter.find_module(fullname, path)`. */
  function FindModule(imp: LoggerImporter, st: State, fullname: string,
                      path: Option<seq<string>>, host: Host): Step
  {
    if Excluded(imp.exclude, fullname) then Step(Decline, st)
    else if !PyStr.Contains(fullname, imp.includeToken) then Step(Decline, st)
    else
      match Prepare(imp, fullname, path, host)
      case NotPatched => Step(Decline, st)
      case PrepareError(e) => Step(Error(e), st)
      case Ready(fileName, patched) => Execute(imp, st, fullname, fileName, patched, host)
  }

  /** The filters mean: no exclude token is a substring of the name, and the
      include token is. */
  lemma PassesFiltersMeaning(imp: LoggerImporter, fullname: string)
    ensures PassesFilters(imp, fullname)
        <==> && (forall k :: 0 <= k < |imp.exclude| ==> !PyStr.Occurs(imp.exclude[k], fullname))
             && PyStr.Occurs(imp.includeToken, fullname)
  {
    ExcludedIffSomeTokenOccurs(imp.exclude, fullname);
    PyStr.ContainsIffOccurs(fullname, imp.includeToken);
  }

  /** A name containing an exclude token is declined with nothing changed,
      whether or not it contains the include token. */
  lemma ExcludeWins(imp: LoggerImporter, st: State, fullname: string,
                    path: Option<seq<string>>, host: Host)
    requires exists k :: 0 <= k < |imp.exclude| && PyStr.Occurs(imp.exclude[k], fullname)
    ensures FindModule(imp, st, fullname, path, host) == Step(Decline, st)
  {
    ExcludedIffSomeTokenOccurs(imp.exclude, fullname);
  }

  /** A name that does not contain the include token is declined with
      nothing changed. */
  lemma IncludeMismatchDeclines(imp: LoggerImporter, st: State, fullname: string,
                                path: Option<seq<string>>, host: Host)
    requires !PyStr.Occurs(imp.includeToken, fullname)
    ensures FindModule(imp, st, fullname, path, host) == Step(Decline, st)
  {
    PyStr.ContainsIffOccurs(fullname, imp.includeToken);
  }

  /** An empty include token lets every name through the include filter. */
  lemma EmptyIncludeAcceptsEveryName(imp: LoggerImporter, fullname: string)
    requires imp.includeToken == ""
    ensures PassesFilters(imp, fullname) <==> !Excluded(imp.exclude, fullname)
  {
    PyStr.EmptyIsContained(fullname);
  }

  /** Without an exclude list nothing is excluded; only the include token
      decides. */
  lemma MissingExcludeExcludesNothing(logFile: string, includeToken: string, fullname: string)
    ensures PassesFilters(NewLoggerImporter(logFile, includeToken, None), fullname)
        <==> PyStr.Occurs(includeToken, fullname)
  {
    PyStr.ContainsIffOccurs(fullname, includeToken);
  }

  /** `do_hook()` with its defaults appends an importer that logs to standard
      output and lets every module name through its filters. */
  lemma DefaultHookPatchesEveryName(st: State, fullname: string)
    ensures var st' := DoHook(st, DefaultLogFile, "", None);
            && st'.metaPath[|st.metaPath|].Logger?
            && st'.metaPath[|st.metaPath|].importer.logFile == "/dev/stdout"
            && PassesFilters(st'.metaPath[|st.metaPath|].importer, fullname)
  {
    PyStr.EmptyIsContained(fullname);
  }

  /** When the locator finds no file for the last component (a package
      directory, a built-in), the request is declined with nothing changed. */
  lemma NoFileDeclines(imp: LoggerImporter, st: State, fullname: string,
                       path: Option<seq<string>>, host: Host)
    requires PassesFilters(imp, fullname)
    requires host.locate(LastComponent(fullname), path) == NoFile
    ensures FindModule(imp, st, fullname, path, host) == Step(Decline, st)
  {
  }

  /** When the locator finds nothing, its `ImportError` propagates and
      nothing changes. */
  lemma NotFoundRaises(imp: LoggerImporter, st: State, fullname: string,
                       path: Option<seq<string>>, host: Host)
    requires PassesFilters(imp, fullname)
    requires host.locate(LastComponent(fullname), path) == NotFound
    ensures FindModule(imp, st, fullname, path, host)
         == Step(Error("ImportError: No module named " + LastComponent(fullname)), st)
  {
  }

  /** Once the module is built, its cache entry exists whatever happens next.
      `setdefault` hands back the module already cached under `fullname`,
      namespace included, or a fresh empty one named `fullname`; it gets
      `__include__`, the text before the last dot, and `__file__`, the
      located file. That module is the one the code runs in: it is cached as
      it was when compiling fails, and with the namespace execution left
      otherwise. Every other cache entry and `sys.meta_path` are untouched. */
  lemma BuiltModuleIsCached(imp: LoggerImporter, st: State, fullname: string,
                            path: Option<seq<string>>, host: Host, fileName: string,
                            tree: seq<AstTransformer.Stmt>)
    requires PassesFilters(imp, fullname)
    requires Prepare(imp, fullname, path, host) == Ready(fileName, tree)
    ensures var s := FindModule(imp, st, fullname, path, host).state;
            && fullname in s.modules
            && s.modules[fullname].includeAttr == Some(ParentName(fullname))
            && s.modules[fullname].file == Some(fileName)
            && (fullname in st.modules ==> s.modules[fullname].name == st.modules[fullname].name)
            && (fullname !in st.modules ==> s.modules[fullname].name == fullname)
            && (var given := if fullname in st.modules
                             then st.modules[fullname].(includeAttr := Some(ParentName(fullname)),
                                                        file := Some(fileName))
                             else Module(fullname, Some(ParentName(fullname)), Some(fileName), map[]);
                && (host.compile(Code(tree, fileName)).Some? ==> s.modules[fullname] == given)
                && (host.compile(Code(tree, fileName)).None? ==>
                      s.modules[fullname] == given.(globals := host.exec(Code(tree, fileName), given).globals)))
            && (forall k :: k != fullname ==> (k in s.modules <==> k in st.modules))
            && (forall k :: k != fullname && k in st.modules ==> s.modules[k] == st.modules[k])
            && s.metaPath == st.metaPath
  {
    assert FindModule(imp, st, fullname, path, host) == Execute(imp, st, fullname, fileName, tree, host);
    ExecuteCachesEntry(imp, st, fullname, fileName, tree, host);
  }

  /** The cache after the second half of `find_module`: the entry for
      `fullname` is the module `setdefault` handed back, the cached one or a
      fresh empty one, with the metadata set before execution; its namespace
      is the one that module had if compiling fails, and the one execution
      left otherwise; nothing else changes. */
  lemma ExecuteCachesEntry(imp: LoggerImporter, st: State, fullname: string, fileName: string,
                           tree: seq<AstTransformer.Stmt>, host: Host)
    ensures var s := Execute(imp, st, fullname, fileName, tree, host).state;
            var given := if fullname in st.modules
                         then st.modules[fullname].(includeAttr := Some(ParentName(fullname)),
                                                    file := Some(fileName))
                         else Module(fullname, Some(ParentName(fullname)), Some(fileName), map[]);
            && s.modules.Keys == st.modules.Keys + {fullname}
            && (host.compile(Code(tree, fileName)).Some? ==> s.modules[fullname] == given)
            && (host.compile(Code(tree, fileName)).None? ==>
                  s.modules[fullname] == given.(globals := host.exec(Code(tree, fileName), given).globals))
            && (forall k :: k != fullname && k in st.modules ==> s.modules[k] == st.modules[k])
            && s.metaPath == st.metaPath
  {
    var entry := CacheEntry(st.modules, fullname, fileName);
    var code := Code(tree, fileName);
    if host.compile(code).None? {
      var out := host.exec(code, entry);
      var m := entry.(globals := out.globals);
      assert Execute(imp, st, fullname, fileName, tree, host).state.modules == st.modules[fullname := m];
    }
  }

  /** The log grew from `before` to `after` by the records `written` by the
      module's code, then at most one record of the hook's own: a failure
      line for `fullname` in the importer's log file, only on a decline. */
  predicate HookLogged(imp: LoggerImporter, fullname: string, result: FindResult,
                       before: seq<LogRecord>, written: seq<LogRecord>, after: seq<LogRecord>)
  {
    var n := |before| + |written|;
    && n <= |after| <= n + 1
    && after[..n] == before + written
    && (|after| == n + 1 ==>
          && result == Decline
          && after[n].file == imp.logFile
          && PyStr.StartsWith(after[n].text, "exec failed in " + fullname + " : "))
  }

  /** The records a compiled module's code wrote while it ran; none when it
      did not compile. */
  function WrittenByRun(run: Option<ExecOutcome>): seq<LogRecord>
  {
    if run.Some? then run.value.written else []
  }

  /** The log after the second half of `find_module`: what the module's code
      wrote, then on a decline one more line for this module in this
      importer's log file. */
  lemma ExecuteLogsAtMostOneLine(imp: LoggerImporter, st: State, fullname: string, fileName: string,
                                 tree: seq<AstTransformer.Stmt>, host: Host)
    ensures var step := Execute(imp, st, fullname, fileName, tree, host);
            var run := RunOutcome(st, fullname, Ready(fileName, tree), host);
            HookLogged(imp, fullname, step.result, st.log, WrittenByRun(run), step.state.log)
  {
    var entry := CacheEntry(st.modules, fullname, fileName);
    var code := Code(tree, fileName);
    if host.compile(code).None? {
      var out := host.exec(code, entry);
      var n := |st.log| + |out.written|;
      if out.ExecFailed? {
        var line := ExecFailureLine(fullname, out.message);
        var prefix := "exec failed in " + fullname + " : ";
        assert line == prefix + (out.message + "\n");
        assert line[..|prefix|] == prefix;
        var after := st.log + out.written + [LogRecord(imp.logFile, line)];
        assert after[..n] == st.log + out.written;
        assert after[n].text == line;
      } else {
        var after := st.log + out.written;
        assert after[..n] == after;
      }
    } else {
      assert st.log[..|st.log|] == st.log;
      assert st.log + [] == st.log;
    }
  }

  /** When the patched module's own code raises an `Exception`, after the
      records it wrote exactly one line naming the module and the message is
      appended to the log file,
      the request is declined so that the next finder loads the module
      unpatched, and the cache entry stays. */
  lemma ExecFailureLogsOneLine(imp: LoggerImporter, st: State, fullname: string,
                               path: Option<seq<string>>, host: Host, fileName: string,
                               tree: seq<AstTransformer.Stmt>)
    requires PassesFilters(imp, fullname)
    requires Prepare(imp, fullname, path, host) == Ready(fileName, tree)
    requires host.compile(Code(tree, fileName)).None?
    requires host.exec(Code(tree, fileName), CacheEntry(st.modules, fullname, fileName)).ExecFailed?
    ensures var step := FindModule(imp, st, fullname, path, host);
            var out := host.exec(Code(tree, fileName), CacheEntry(st.modules, fullname, fileName));
            && step.result == Decline
            && step.state.log == st.log + out.written
                                 + [LogRecord(imp.logFile, "exec failed in " + fullname + " : " + out.message + "\n")]
            && fullname in step.state.modules
  {
    assert FindModule(imp, st, fullname, path, host) == Execute(imp, st, fullname, fileName, tree, host);
  }

  /** A loader is returned only for a patched module that executed without
      raising; its `load_module` hands back the cached module whatever name
      it is given, and the hook logged nothing beyond what the module's code
      wrote. */
  lemma LoaderReturnsCachedModule(imp: LoggerImporter, st: State, fullname: string,
                                  path: Option<seq<string>>, host: Host)
    ensures var step := FindModule(imp, st, fullname, path, host);
            step.result.Load? ==>
              && PassesFilters(imp, fullname)
              && Prepare(imp, fullname, path, host).Ready?
              && fullname in step.state.modules
              && (forall other :: step.result.loader.LoadModule(other) == step.state.modules[fullname])
              && (var run := RunOutcome(st, fullname, Prepare(imp, fullname, path, host), host);
                  && run.Some? && run.value.ExecOk?
                  && step.state.log == st.log + run.value.written)
  {
    var p := Prepare(imp, fullname, path, host);
    if PassesFilters(imp, fullname) && p.Ready? {
      var e := Execute(imp, st, fullname, p.fileName, p.tree, host);
      assert FindModule(imp, st, fullname, path, host) == e;
    }
  }

  /** Whatever happens, `find_module` changes no cache entry but the one for
      `fullname` and leaves `sys.meta_path` alone. The log grows only by what
      the module's code wrote, if it ran, and on a decline after a failed
      execution by one line for this module in this importer's log file. */
  lemma FindModuleFrame(imp: LoggerImporter, st: State, fullname: string,
                        path: Option<seq<string>>, host: Host)
    ensures var s := FindModule(imp, st, fullname, path, host);
            && s.state.metaPath == st.metaPath
            && (forall k :: k != fullname ==> (k in s.state.modules <==> k in st.modules))
            && (forall k :: k != fullname && k in st.modules ==> s.state.modules[k] == st.modules[k])
            && (var run := RunOutcome(st, fullname, Prepare(imp, fullname, path, host), host);
                HookLogged(imp, fullname, s.result, st.log,
                           if PassesFilters(imp, fullname) then WrittenByRun(run) else [], s.state.log))
            && (!PassesFilters(imp, fullname) ==> s == Step(Decline, st))
  {
    var p := Prepare(imp, fullname, path, host);
    if PassesFilters(imp, fullname) && p.Ready? {
      assert FindModule(imp, st, fullname, path, host) == Execute(imp, st, fullname, p.fileName, p.tree, host);
      ExecuteCachesEntry(imp, st, fullname, p.fileName, p.tree, host);
      ExecuteLogsAtMostOneLine(imp, st, fullname, p.fileName, p.tree, host);
    } else {
      assert st.log[..|st.log|] == st.log;
      assert st.log + [] == st.log;
    }
  }

  /** When the patched module compiles and its code runs to the end, the hook
      returns a loader holding the cached module, whose namespace is the one
      execution left, and the log gains only what the module's code wrote. */
  lemma ExecOkLoads(imp: LoggerImporter, st: State, fullname: string,
                    path: Option<seq<string>>, host: Host, fileName: string,
                    tree: seq<AstTransformer.Stmt>)
    requires PassesFilters(imp, fullname)
    requires Prepare(imp, fullname, path, host) == Ready(fileName, tree)
    requires host.compile(Code(tree, fileName)).None?
    requires host.exec(Code(tree, fileName), CacheEntry(st.modules, fullname, fileName)).ExecOk?
    ensures var step := FindModule(imp, st, fullname, path, host);
            && fullname in step.state.modules
            && step.result == Load(LoggerLoader(step.state.modules[fullname]))
            && step.state.modules[fullname].globals
               == host.exec(Code(tree, fileName), CacheEntry(st.modules, fullname, fileName)).globals
            && step.state.log
               == st.log + host.exec(Code(tree, fileName), CacheEntry(st.modules, fullname, fileName)).written
  {
    assert FindModule(imp, st, fullname, path, host) == Execute(imp, st, fullname, fileName, tree, host);
  }

  /** How far the locate, parse and transform steps get: only a missing file
      stops patching quietly; a missing module, a parse error and a template
      error each become an error carrying its message; otherwise the tree is
      the transformed parse of the located file. */
  lemma PrepareOutcome(imp: LoggerImporter, fullname: string, path: Option<seq<string>>, host: Host)
    ensures var p := Prepare(imp, fullname, path, host);
            var loc := host.locate(LastComponent(fullname), path);
            && (p.NotPatched? <==> loc.NoFile?)
            && (loc.NotFound? ==> p == PrepareError("ImportError: No module named " + LastComponent(fullname)))
            && (loc.SourceFile? && host.parse(loc.source).Raised? ==>
                  p == PrepareError(host.parse(loc.source).error))
            && (loc.SourceFile? && host.parse(loc.source).Ok? ==>
                  var r := AstTransformer.LogExceptions(host.parse(loc.source).value, imp.logFile, host.parse);
                  && (r.Raised? ==> p == PrepareError(r.error))
                  && (r.Ok? ==> p == Ready(loc.fileName, r.value)))
  {
  }

  /** What the module's code did, when the hook got as far as running it. */
  function RunOutcome(st: State, fullname: string, p: Prepared, host: Host): Option<ExecOutcome>
  {
    if p.Ready? && host.compile(Code(p.tree, p.fileName)).None? then
      Some(host.exec(Code(p.tree, p.fileName), CacheEntry(st.modules, fullname, p.fileName)))
    else None
  }

  /** Which result `find_module` gives. It declines exactly when the filters
      reject the name, no file is found, or the module's code raises an
      `Exception`; it returns a loader exactly when the code runs to the end;
      every other failure (a missing module, a parse, template or compile
      error, a `BaseException` from the code) propagates with its message. */
  lemma FindModuleOutcome(imp: LoggerImporter, st: State, fullname: string,
                          path: Option<seq<string>>, host: Host)
    ensures var step := FindModule(imp, st, fullname, path, host);
            var p := Prepare(imp, fullname, path, host);
            var run := RunOutcome(st, fullname, p, host);
            && (step.result == Decline
                <==> !PassesFilters(imp, fullname) || p.NotPatched? || (run.Some? && run.value.ExecFailed?))
            && (step.result.Load? <==> PassesFilters(imp, fullname) && run.Some? && run.value.ExecOk?)
            && (step.result.Error?
                <==> && PassesFilters(imp, fullname)
                     && (p.PrepareError? || (p.Ready? && run.None?) || (run.Some? && run.value.ExecAborted?)))
            && (PassesFilters(imp, fullname) && p.PrepareError? ==> step.result == Error(p.message))
            && (PassesFilters(imp, fullname) && p.Ready? && run.None? ==>
                  step.result == Error(host.compile(Code(p.tree, p.fileName)).value))
            && (PassesFilters(imp, fullname) && run.Some? && run.value.ExecAborted? ==>
                  step.result == Error(run.value.message))
  {
    var p := Prepare(imp, fullname, path, host);
    if PassesFilters(imp, fullname) && p.Ready? {
      assert FindModule(imp, st, fullname, path, host) == Execute(imp, st, fullname, p.fileName, p.tree, host);
    }
  }
}

=== FILE: pystr.dfy ===
/** The Python string operations the import hook relies on: the `in`
    operator on strings, `str.split` with a one-character separator, and
    `str.rpartition`. Strings are sequences of characters. */
module PyStr {

  /** `needle` occurs in `hay` at position `i`. */
  ghost predicate OccursAt(needle: string, hay: string, i: int)
  {
    0 <= i && i + |needle| <= |hay| && hay[i..i + |needle|] == needle
  }

  /** The reference meaning of a substring: some position where it occurs. */
  ghost predicate Occurs(needle: string, hay: string)
  {
    exists i :: OccursAt(needle, hay, i)
  }

  predicate StartsWith(hay: string, prefix: string)
  {
    |prefix| <= |hay| && hay[..|prefix|] == prefix
  }

  /** Python's `needle in hay` for two strings, by a left-to-right scan. */
  predicate Contains(hay: string, needle: string)
    decreases |hay|
  {
    StartsWith(hay, needle) || (|hay| > 0 && Contains(hay[1..], needle))
  }

  /** The scan agrees with the reference meaning, in both directions. */
  lemma {:induction false} ContainsIffOccurs(hay: string, needle: string)
    ensures Contains(hay, needle) <==> Occurs(needle, hay)
    decreases |hay|
  {
    if |hay| == 0 {
      if |needle| == 0 {
        assert OccursAt(needle, hay, 0);
      }
    } else {
      ContainsIffOccurs(hay[1..], needle);
      if StartsWith(hay, needle) {
        assert OccursAt(needle, hay, 0);
      }
      if Contains(hay[1..], needle) {
        var i :| OccursAt(needle, hay[1..], i);
        assert hay[1..][i..i + |needle|] == hay[i + 1..i + 1 + |needle|];
        assert OccursAt(needle, hay, i + 1);
      }
      if Occurs(needle, hay) {
        var i :| OccursAt(needle, hay, i);
        if i == 0 {
          assert StartsWith(hay, needle);
        } else {
          assert hay[1..][i - 1..i - 1 + |needle|] == hay[i..i + |needle|];
          assert OccursAt(needle, hay[1..], i - 1);
        }
      }
    }
  }

  /** The empty string is contained in every string, as in Python. */
  lemma EmptyIsContained(hay: string)
    ensures Contains(hay, "")
  {
    assert StartsWith(hay, "");
  }

  /** Python's `s.split(sep)` for a one-character separator: the maximal
      separator-free pieces, in order. Never empty. */
  function Split(s: string, sep: char): (parts: seq<string>)
    ensures |parts| >= 1
    ensures forall i :: 0 <= i < |parts| ==> sep !in parts[i]
    ensures |parts| == 1 <==> sep !in s
    decreases |s|
  {
    if |s| == 0 then [""]
    else
      var rest := Split(s[1..], sep);
      if s[0] == sep then [""] + rest
      else [[s[0]] + rest[0]] + rest[1..]
  }

  /** Python's `sep.join(parts)`. */
  function Join(parts: seq<string>, sep: char): string
    requires |parts| >= 1
  {
    if |parts| == 1 then parts[0]
    else parts[0] + [sep] + Join(parts[1..], sep)
  }

  /** Splitting and joining again gives back the original string. */
  lemma {:induction false} JoinSplit(s: string, sep: char)
    ensures Join(Split(s, sep), sep) == s
    decreases |s|
  {
    if |s| > 0 {
      var rest := Split(s[1..], sep);
      JoinSplit(s[1..], sep);
      assert s == [s[0]] + s[1..];
      if s[0] != sep {
        var parts := [[s[0]] + rest[0]] + rest[1..];
        assert parts[1..] == rest[1..];
      }
    }
  }

  /** Python's `s.rpartition(sep)`: the text before the last separator, the
      separator itself, and the text after it; `("", "", s)` when `s` holds
      no separator. */
  function RPartition(s: string, sep: char): (r: (string, string, string))
    ensures r.0 + r.1 + r.2 == s
    ensures r.1 == [] || r.1 == [sep]
    ensures sep !in r.2
    ensures r.1 == [] <==> sep !in s
    ensures r.1 == [] ==> r.0 == [] && r.2 == s
    decreases |s|
  {
    if |s| == 0 then ("", "", "")
    else
      var r := RPartition(s[1..], sep);
      assert s == [s[0]] + s[1..];
      if r.1 != [] then ([s[0]] + r.0, r.1, r.2)
      else if s[0] == sep then ("", [sep], s[1..])
      else ("", "", s)
  }

  /** The last piece of a split is the tail of an rpartition: both name the
      text after the last separator. */
  lemma {:induction false} SplitLastIsRPartitionTail(s: string, sep: char)
    ensures var parts := Split(s, sep); parts[|parts| - 1] == RPartition(s, sep).2
    decreases |s|
  {
    if |s| > 0 {
      SplitLastIsRPartitionTail(s[1..], sep);
    }
  }
}

=== FILE: template.dfy ===
/** Python's `str.format` as `tree_factory` uses it: keyword fields only.
    Literal text is copied, `{{` and `}}` stand for single braces, and a
    field `{name}` is replaced by the keyword argument `name`. */
module Template {
  import opened Wrappers

  /** Text with no brace, which formatting copies verbatim. */
  predicate NoBraces(s: string)
  {
    forall i | 0 <= i < |s| :: s[i] != '{' && s[i] != '}'
  }

  lemma NoBracesConcat(a: string, b: string)
    requires NoBraces(a) && NoBraces(b)
    ensures NoBraces(a + b)
  {
    forall i | 0 <= i < |a + b|
      ensures (a + b)[i] != '{' && (a + b)[i] != '}'
    {
      if i >= |a| {
        assert (a + b)[i] == b[i - |a|];
      }
    }
  }

  /** Index of the first `}` in `s` at or after `from`, if any. */
  function FindClose(s: string, from: nat): (r: Option<nat>)
    ensures r.Some? ==> from <= r.value < |s| && s[r.value] == '}'
                        && '}' !in s[from..r.value]
    ensures r.None? ==> from >= |s| || '}' !in s[from..]
    decreases |s| - from
  {
    if from >= |s| then None
    else if s[from] == '}' then Some(from)
    else
      var r := FindClose(s, from + 1);
      assert r.Some? ==> s[from..r.value] == [s[from]] + s[from + 1..r.value];
      assert r.None? ==> from + 1 >= |s| || s[from..] == [s[from]] + s[from + 1..];
      r
  }

  /** The characters that end a field's argument name: attribute access,
      indexing, a conversion, or a format spec follows. */
  predicate IsFieldCut(c: char)
  {
    c == '.' || c == '[' || c == '!' || c == ':'
  }

  /** A field text without attribute access, indexing, conversion or format
      spec: the whole text is the argument name. */
  predicate IsPlainField(field: string)
  {
    forall i | 0 <= i < |field| :: !IsFieldCut(field[i])
  }

  /** The argument name of a field: its text up to the first cut character. */
  function ArgName(field: string): (a: string)
    ensures a <= field && IsPlainField(a)
    ensures |a| < |field| ==> IsFieldCut(field[|a|])
  {
    if |field| == 0 || IsFieldCut(field[0]) then ""
    else [field[0]] + ArgName(field[1..])
  }

  /** Where a field's name part ends: its first `:` or `!`, or its end. */
  function NameEnd(field: string): (k: nat)
    ensures k <= |field|
    ensures forall i | 0 <= i < k :: field[i] != ':' && field[i] != '!'
    ensures k < |field| ==> field[k] == ':' || field[k] == '!'
  {
    if |field| == 0 || field[0] == ':' || field[0] == '!' then 0
    else 1 + NameEnd(field[1..])
  }

  /** The error Python's field parser raises before any lookup, if any: a
      `!` must be followed by one conversion character, then the end of the
      field or a `:`. */
  function ConversionError(field: string): Option<string>
  {
    var k := NameEnd(field);
    if k < |field| && field[k] == '!' then
      if k + 1 == |field| then Some("ValueError: end of format while looking for conversion specifier")
      else if k + 2 < |field| && field[k + 2] != ':' then Some("ValueError: expected ':' after format specifier")
      else None
    else None
  }

  /** A field without `!` has no conversion to get wrong. */
  lemma NoBangNoConversionError(field: string)
    requires forall i | 0 <= i < |field| :: field[i] != '!'
    ensures ConversionError(field).None?
  {
  }

  /** `PY_SSIZE_T_MAX` on a 64-bit build: the largest index an argument
      name may spell. */
  const PySsizeTMax: nat := 0x7FFF_FFFF_FFFF_FFFF

  predicate IsDigit(c: char)
  {
    '0' <= c <= '9'
  }

  function DigitValue(c: char): nat
  {
    if IsDigit(c) then (c as int) - ('0' as int) else 0
  }

  /** The longest run of decimal digits at the start of `s`. */
  function LeadingDigits(s: string): (d: string)
    ensures d <= s
    ensures forall i | 0 <= i < |d| :: IsDigit(d[i])
    ensures |d| < |s| ==> !IsDigit(s[|d|])
  {
    if |s| == 0 || !IsDigit(s[0]) then ""
    else [s[0]] + LeadingDigits(s[1..])
  }

  /** The number `acc` followed by the digits `d` spells. */
  function ReadDigits(acc: nat, d: string): nat
    decreases |d|
  {
    if |d| == 0 then acc else ReadDigits(acc * 10 + DigitValue(d[0]), d[1..])
  }

  /** The leading digits of an argument name spell a number too large for
      an index. */
  predicate TooManyDigits(name: string)
  {
    ReadDigits(0, LeadingDigits(name)) > PySsizeTMax
  }

  /** The overflow test of `get_integer` in CPython's string formatter, as
      written: digits are accumulated left to right, and before each step
      the accumulator is compared with `(PY_SSIZE_T_MAX - digit) / 10`, so
      that the test fires before the value would pass the maximum. The scan
      ends quietly at the first character that is not a digit. */
  predicate GetIntegerOverflows(acc: nat, s: string)
    decreases |s|
  {
    && |s| > 0 && IsDigit(s[0])
    && (|| acc > (PySsizeTMax - DigitValue(s[0])) / 10
        || GetIntegerOverflows(acc * 10 + DigitValue(s[0]), s[1..]))
  }

  /** Reading more digits never makes a number smaller. */
  lemma {:induction false} ReadDigitsGrows(acc: nat, d: string)
    ensures ReadDigits(acc, d) >= acc
    decreases |d|
  {
    if |d| > 0 {
      ReadDigitsGrows(acc * 10 + DigitValue(d[0]), d[1..]);
    }
  }

  /** The test before each step fires exactly when the next value would pass
      the maximum. */
  lemma StepOverflows(acc: nat, c: char)
    requires IsDigit(c)
    ensures acc > (PySsizeTMax - DigitValue(c)) / 10 <==> acc * 10 + DigitValue(c) > PySsizeTMax
  {
    var q := (PySsizeTMax - DigitValue(c)) / 10;
    var r := (PySsizeTMax - DigitValue(c)) % 10;
    assert PySsizeTMax - DigitValue(c) == 10 * q + r && 0 <= r < 10;
  }

  /** The incremental test of `get_integer` fires exactly when the name's
      leading digits spell a number above `PY_SSIZE_T_MAX`. */
  lemma {:induction false} GetIntegerOverflowsIffTooLarge(acc: nat, s: string)
    requires acc <= PySsizeTMax
    ensures GetIntegerOverflows(acc, s) <==> ReadDigits(acc, LeadingDigits(s)) > PySsizeTMax
    decreases |s|
  {
    if |s| > 0 && IsDigit(s[0]) {
      var next := acc * 10 + DigitValue(s[0]);
      assert LeadingDigits(s) == [s[0]] + LeadingDigits(s[1..]);
      assert ReadDigits(acc, LeadingDigits(s)) == ReadDigits(next, LeadingDigits(s[1..]));
      StepOverflows(acc, s[0]);
      if next > PySsizeTMax {
        ReadDigitsGrows(next, LeadingDigits(s[1..]));
      } else {
        GetIntegerOverflowsIffTooLarge(next, s[1..]);
      }
    }
  }

  function Pow10(n: nat): nat
  {
    if n == 0 then 1 else 10 * Pow10(n - 1)
  }

  lemma {:induction false} Pow10Grows(m: nat, n: nat)
    requires m <= n
    ensures Pow10(m) <= Pow10(n)
    decreases n
  {
    if m < n {
      Pow10Grows(m, n - 1);
    }
  }

  /** Each digit read multiplies what was read before by ten. */
  lemma {:induction false} ReadDigitsAtLeast(acc: nat, d: string)
    ensures ReadDigits(acc, d) >= acc * Pow10(|d|)
    decreases |d|
  {
    if |d| > 0 {
      var next := acc * 10 + DigitValue(d[0]);
      ReadDigitsAtLeast(next, d[1..]);
      ShiftAtLeast(acc, DigitValue(d[0]), Pow10(|d| - 1));
    }
  }

  /** One digit step, scaled: `(10a + v) * p >= a * 10p`. */
  lemma ShiftAtLeast(a: nat, v: nat, p: nat)
    ensures (a * 10 + v) * p >= a * (10 * p)
  {
    assert (a * 10 + v) * p == a * (10 * p) + v * p;
  }

  /** A name that starts with twenty digits, the first not zero, spells at
      least `10^19`, which is past `PY_SSIZE_T_MAX`. */
  lemma TwentyDigitsTooMany(s: string)
    requires |s| >= 20 && s[0] != '0'
    requires forall i | 0 <= i < 20 :: IsDigit(s[i])
    ensures TooManyDigits(s)
  {
    var d := LeadingDigits(s);
    assert |d| >= 20;
    assert d[0] == s[0];
    assert ReadDigits(0, d) == ReadDigits(DigitValue(d[0]), d[1..]);
    ReadDigitsAtLeast(DigitValue(d[0]), d[1..]);
    Pow10Grows(19, |d| - 1);
    Pow10Nineteen();
    assert DigitValue(d[0]) >= 1;
  }

  lemma Pow10Nineteen()
    ensures Pow10(19) == 10_000_000_000_000_000_000
  {
    assert Pow10(1) == 10;
    assert Pow10(2) == 100;
    assert Pow10(3) == 1000;
    assert Pow10(4) == 10000;
    assert Pow10(5) == 100000;
    assert Pow10(6) == 1000000;
    assert Pow10(7) == 10000000;
    assert Pow10(8) == 100000000;
    assert Pow10(9) == 1000000000;
    assert Pow10(10) == 10000000000;
    assert Pow10(11) == 100000000000;
    assert Pow10(12) == 1000000000000;
    assert Pow10(13) == 10000000000000;
    assert Pow10(14) == 100000000000000;
    assert Pow10(15) == 1000000000000000;
    assert Pow10(16) == 10000000000000000;
    assert Pow10(17) == 100000000000000000;
    assert Pow10(18) == 1000000000000000000;
    assert Pow10(19) == 10000000000000000000;
  }

  /** Python reads an argument name that is empty or all digits as a
      positional index; `tree_factory` passes no positional argument, so
      such a field fails. Any other name is a keyword. */
  predicate IsPositional(name: string)
  {
    forall i | 0 <= i < |name| :: '0' <= name[i] <= '9'
  }

  /** The text a field `{field}` stands for, or the error it raises: the
      conversion syntax is checked first, then the argument name must be a
      keyword; a bound field with attribute access, indexing, a conversion
      or a spec is outside the subset modelled here. */
  function FieldValue(field: string, ids: map<string, string>): (r: Result<string>)
    ensures r.Ok? <==> ConversionError(field).None? && IsPlainField(field) && !TooManyDigits(field)
                       && !IsPositional(field) && field in ids
    ensures r.Ok? ==> r.value == ids[field]
    ensures ConversionError(field).None? && TooManyDigits(ArgName(field))
            ==> r == Raised("ValueError: Too many decimal digits in format string")
    ensures ConversionError(field).None? && !TooManyDigits(ArgName(field)) && IsPositional(ArgName(field))
            ==> r == Raised("IndexError: tuple index out of range")
    ensures ConversionError(field).None? && !TooManyDigits(ArgName(field))
            && !IsPositional(ArgName(field)) && ArgName(field) !in ids
            ==> r == Raised("KeyError: " + ArgName(field))
  {
    ArgNameIsWholeIffPlain(field);
    var arg := ArgName(field);
    GetIntegerOverflowsIffTooLarge(0, arg);
    if ConversionError(field).Some? then Raised(ConversionError(field).value)
    else if GetIntegerOverflows(0, arg) then Raised("ValueError: Too many decimal digits in format string")
    else if IsPositional(arg) then Raised("IndexError: tuple index out of range")
    else if arg !in ids then Raised("KeyError: " + arg)
    else if arg != field then Raised("unsupported field: " + field)
    else Ok(ids[arg])
  }

  /** Puts `prefix` in front of a successful result; an error passes through. */
  function Prepend(prefix: string, r: Result<string>): Result<string>
  {
    match r
    case Ok(s) => Ok(prefix + s)
    case Raised(e) => r
  }

  /** `t.format(**ids)`: scans left to right; raises on a lone brace, an
      unclosed field, a malformed conversion, a positional field, or a field
      whose argument name is not one of the keywords. A bound field with attribute access, indexing,
      a conversion or a format spec is outside the subset modelled here. */
  function Format(t: string, ids: map<string, string>): (r: Result<string>)
    decreases |t|
  {
    if |t| == 0 then Ok("")
    else if t[0] == '{' then
      if |t| >= 2 && t[1] == '{' then Prepend("{", Format(t[2..], ids))
      else
        match FindClose(t, 1)
        case None =>
          Raised("ValueError: expected '}' before end of string")
        case Some(j) =>
          match FieldValue(t[1..j], ids)
          case Raised(e) => Raised(e)
          case Ok(v) => Prepend(v, Format(t[j + 1..], ids))
    else if t[0] == '}' then
      if |t| >= 2 && t[1] == '}' then Prepend("}", Format(t[2..], ids))
      else Raised("ValueError: Single '}' encountered in format string")
    else Prepend([t[0]], Format(t[1..], ids))
  }

  /** Brace-free text is copied in front of whatever follows it. */
  lemma {:induction false} FormatLiteral(lit: string, rest: string, ids: map<string, string>)
    requires NoBraces(lit)
    ensures Format(lit + rest, ids) == Prepend(lit, Format(rest, ids))
    decreases |lit|
  {
    if |lit| > 0 {
      var t := lit + rest;
      assert t[0] == lit[0] && t[0] != '{' && t[0] != '}';
      assert t[1..] == lit[1..] + rest;
      assert forall i | 0 <= i < |lit[1..]| :: lit[1..][i] == lit[i + 1];
      FormatLiteral(lit[1..], rest, ids);
      assert Format(t, ids) == Prepend([lit[0]], Format(lit[1..] + rest, ids));
      assert [lit[0]] + lit[1..] == lit;
      var r := Format(rest, ids);
      if r.Ok? {
        assert [lit[0]] + (lit[1..] + r.value) == lit + r.value;
        assert Prepend(lit[1..], r) == Ok(lit[1..] + r.value);
      }
    } else {
      assert lit + rest == rest;
      if Format(rest, ids).Ok? {
        assert lit + Format(rest, ids).value == Format(rest, ids).value;
      }
    }
  }

  /** Brace-free text alone formats to itself. */
  lemma FormatNoBraces(lit: string, ids: map<string, string>)
    requires NoBraces(lit)
    ensures Format(lit, ids) == Ok(lit)
  {
    FormatLiteral(lit, "", ids);
    assert lit + "" == lit;
  }

  /** A plain keyword field is replaced by its value, which is not scanned
      again. */
  lemma FormatField(name: string, rest: string, ids: map<string, string>)
    requires name in ids && NoBraces(name) && IsPlainField(name) && !IsPositional(name)
    requires !TooManyDigits(name)
    ensures Format("{" + name + "}" + rest, ids) == Prepend(ids[name], Format(rest, ids))
  {
    var t := "{" + name + "}" + rest;
    assert t[1..1 + |name|] == name;
    assert '}' !in t[1..1 + |name|];
    assert t[1 + |name|] == '}';
    var j := FindClose(t, 1);
    assert j == Some(1 + |name|);
    ArgNameOfPlainField(name);
    assert t[2 + |name|..] == rest;
  }

  /** A brace-free field is read whole: its error is raised, or its value
      goes in front of whatever the rest formats to. */
  lemma FormatOneField(field: string, rest: string, ids: map<string, string>)
    requires NoBraces(field)
    ensures FieldValue(field, ids).Raised? ==> Format("{" + field + "}" + rest, ids) == FieldValue(field, ids)
    ensures FieldValue(field, ids).Ok?
            ==> Format("{" + field + "}" + rest, ids) == Prepend(FieldValue(field, ids).value, Format(rest, ids))
  {
    var t := "{" + field + "}" + rest;
    FieldCloses(field, rest);
    assert t[1] != '{';
    assert t[2 + |field|..] == rest;
  }

  /** A brace-free field is closed by the `}` right after it. */
  lemma FieldCloses(field: string, rest: string)
    requires NoBraces(field)
    ensures FindClose("{" + field + "}" + rest, 1) == Some(1 + |field|)
    ensures ("{" + field + "}" + rest)[1..1 + |field|] == field
  {
    var t := "{" + field + "}" + rest;
    assert t[1..1 + |field|] == field;
    assert '}' !in t[1..1 + |field|];
    assert t[1 + |field|] == '}';
  }

  /** A field is its own argument name exactly when it is plain. */
  lemma ArgNameIsWholeIffPlain(field: string)
    ensures ArgName(field) == field <==> IsPlainField(field)
  {
    if IsPlainField(field) {
      ArgNameOfPlainField(field);
    }
  }

  /** A plain field is its own argument name. */
  lemma {:induction false} ArgNameOfPlainField(field: string)
    requires IsPlainField(field)
    ensures ArgName(field) == field
  {
    if |field| > 0 {
      assert IsPlainField(field[1..]) by {
        forall i | 0 <= i < |field[1..]| ensures !IsFieldCut(field[1..][i]) {
          assert field[1..][i] == field[i + 1];
        }
      }
      ArgNameOfPlainField(field[1..]);
      assert [field[0]] + field[1..] == field;
    }
  }

  /** Only the argument name is looked up: a keyword field whose argument
      name is missing raises `KeyError` naming that argument, whatever
      attribute access, indexing, well-formed conversion or spec follows
      it. A malformed conversion is rejected before the lookup. */
  lemma FormatMissingArgument(arg: string, suffix: string, rest: string, ids: map<string, string>)
    requires NoBraces(arg) && IsPlainField(arg) && !IsPositional(arg) && arg !in ids && !TooManyDigits(arg)
    requires NoBraces(suffix) && (suffix == [] || IsFieldCut(suffix[0]))
    requires ConversionError(arg + suffix).None?
    ensures Format("{" + (arg + suffix) + "}" + rest, ids) == Raised("KeyError: " + arg)
  {
    var field := arg + suffix;
    ArgNameStopsAtCut(arg, suffix);
    NoBracesConcat(arg, suffix);
    assert FieldValue(field, ids) == Raised("KeyError: " + arg);
    FormatOneField(field, rest, ids);
  }

  /** A field whose argument name is empty or all digits asks for a
      positional argument, of which there are none. A malformed conversion
      is rejected before that. */
  lemma FormatPositionalField(arg: string, suffix: string, rest: string, ids: map<string, string>)
    requires NoBraces(arg) && IsPlainField(arg) && IsPositional(arg) && !TooManyDigits(arg)
    requires NoBraces(suffix) && (suffix == [] || IsFieldCut(suffix[0]))
    requires ConversionError(arg + suffix).None?
    ensures Format("{" + (arg + suffix) + "}" + rest, ids) == Raised("IndexError: tuple index out of range")
  {
    var field := arg + suffix;
    ArgNameStopsAtCut(arg, suffix);
    NoBracesConcat(arg, suffix);
    assert FieldValue(field, ids) == Raised("IndexError: tuple index out of range");
    FormatOneField(field, rest, ids);
  }

  /** The argument name of a plain name followed by a cut is that name. */
  lemma {:induction false} ArgNameStopsAtCut(arg: string, suffix: string)
    requires IsPlainField(arg) && (suffix == [] || IsFieldCut(suffix[0]))
    ensures ArgName(arg + suffix) == arg
  {
    if |arg| > 0 {
      assert (arg + suffix)[0] == arg[0];
      assert (arg + suffix)[1..] == arg[1..] + suffix;
      assert IsPlainField(arg[1..]) by {
        forall i | 0 <= i < |arg[1..]| ensures !IsFieldCut(arg[1..][i]) {
          assert arg[1..][i] == arg[i + 1];
        }
      }
      ArgNameStopsAtCut(arg[1..], suffix);
      assert [arg[0]] + arg[1..] == arg;
    } else {
      assert arg + suffix == suffix;
    }
  }

  /** `{a.b}` looks up the argument `a`, not the text `a.b`: a missing
      argument raises `KeyError` naming it, even when `a.b` is a keyword. */
  lemma AttributeFieldLooksUpArgument(arg: string, attr: string, rest: string, ids: map<string, string>)
    requires NoBraces(arg) && IsPlainField(arg) && |arg| > 0 && !IsDigit(arg[0]) && arg !in ids
    requires NoBraces(attr) && forall i | 0 <= i < |attr| :: attr[i] != '!'
    ensures Format("{" + (arg + ("." + attr)) + "}" + rest, ids) == Raised("KeyError: " + arg)
  {
    var suffix := "." + attr;
    var field := arg + suffix;
    assert forall i | 0 <= i < |field| :: field[i] != '!' by {
      forall i | 0 <= i < |field| ensures field[i] != '!' {
        if i < |arg| {
          assert field[i] == arg[i];
        } else if i > |arg| {
          assert field[i] == attr[i - |arg| - 1];
        }
      }
    }
    NoBangNoConversionError(field);
    NoBracesConcat(".", attr);
    KeywordArgument(arg);
    FormatMissingArgument(arg, suffix, rest, ids);
  }

  /** `{x:>5}` looks up the argument `x`, not the text `x:>5`: a missing
      argument raises `KeyError` naming it, whatever the spec holds. */
  lemma SpecFieldLooksUpArgument(arg: string, spec: string, rest: string, ids: map<string, string>)
    requires NoBraces(arg) && IsPlainField(arg) && |arg| > 0 && !IsDigit(arg[0]) && arg !in ids
    requires NoBraces(spec)
    ensures Format("{" + (arg + (":" + spec)) + "}" + rest, ids) == Raised("KeyError: " + arg)
  {
    var suffix := ":" + spec;
    SpecEndsName(arg, suffix);
    NoBracesConcat(":", spec);
    KeywordArgument(arg);
    FormatMissingArgument(arg, suffix, rest, ids);
  }

  /** A name that does not start with a digit is a keyword, and no index
      overflows in it. */
  lemma KeywordArgument(arg: string)
    requires |arg| > 0 && !IsDigit(arg[0])
    ensures !IsPositional(arg) && !TooManyDigits(arg)
  {
    assert LeadingDigits(arg) == "";
  }

  /** A `:` right after a plain name starts the spec, so no conversion is
      read. */
  lemma SpecEndsName(arg: string, suffix: string)
    requires IsPlainField(arg) && |suffix| > 0 && suffix[0] == ':'
    ensures ConversionError(arg + suffix).None?
  {
    var field := arg + suffix;
    var k := NameEnd(field);
    assert field[|arg|] == ':';
    assert k == |arg|;
  }

  /** A field whose argument name starts with a number past
      `PY_SSIZE_T_MAX` raises `ValueError` before any lookup, whether the
      name is all digits or goes on with other characters. */
  lemma FormatTooManyDigits(arg: string, suffix: string, rest: string, ids: map<string, string>)
    requires NoBraces(arg) && IsPlainField(arg) && TooManyDigits(arg)
    requires NoBraces(suffix) && (suffix == [] || IsFieldCut(suffix[0]))
    requires ConversionError(arg + suffix).None?
    ensures Format("{" + (arg + suffix) + "}" + rest, ids)
         == Raised("ValueError: Too many decimal digits in format string")
  {
    var field := arg + suffix;
    ArgNameStopsAtCut(arg, suffix);
    NoBracesConcat(arg, suffix);
    FormatOneField(field, rest, ids);
  }

  /** A brace-free field with no attribute access, index, conversion or
      spec whose name starts with twenty digits, the first not zero, raises
      `ValueError`: `{99999999999999999999}` and `{99999999999999999999x}`
      both do, whatever the keywords. */
  lemma OverlongNameRaises(name: string, ids: map<string, string>)
    requires |name| >= 20 && name[0] != '0' && forall i | 0 <= i < 20 :: IsDigit(name[i])
    requires forall i | 0 <= i < |name| :: !IsFieldCut(name[i]) && name[i] != '{' && name[i] != '}'
    ensures Format("{" + name + "}", ids) == Raised("ValueError: Too many decimal digits in format string")
  {
    TwentyDigitsTooMany(name);
    NoBangNoConversionError(name + "");
    FormatTooManyDigits(name, "", "", ids);
    assert "{" + (name + "") + "}" + "" == "{" + name + "}";
  }

  /** `{x!}` is rejected by the field parser before `x` is looked up. */
  lemma ConversionCheckedBeforeLookup()
    ensures Format("{x!}", map[]) == Raised("ValueError: end of format while looking for conversion specifier")
  {
    var t := "{x!}";
    FieldCloses("x!", "");
    assert "{" + "x!" + "}" + "" == t;
    assert NameEnd("x!"[1..]) == 0;
    assert NameEnd("x!") == 1;
  }

  /** `{0a}` names a keyword: it is not all digits. */
  lemma DigitLedNameIsKeyword()
    ensures Format("{0a}", map["0a" := "v"]) == Ok("v")
  {
    assert !('0' <= "0a"[1] <= '9');
    FormatField("0a", "", map["0a" := "v"]);
    assert "{" + "0a" + "}" + "" == "{0a}";
    assert Format("", map["0a" := "v"]) == Ok("");
    assert "v" + "" == "v";
  }

  /** A doubled brace stands for one brace. */
  lemma FormatEscapes(rest: string, ids: map<string, string>)
    ensures Format("{{" + rest, ids) == Prepend("{", Format(rest, ids))
    ensures Format("}}" + rest, ids) == Prepend("}", Format(rest, ids))
  {
    assert ("{{" + rest)[2..] == rest;
    assert ("}}" + rest)[2..] == rest;
  }

  /** An escaped `{{}}` followed by brace-free text formats to a literal
      `{}` followed by that text. */
  lemma FormatEscapedPair(tail: string, ids: map<string, string>)
    requires NoBraces(tail)
    ensures Format("{{}}" + tail, ids) == Ok("{}" + tail)
  {
    var closing := "}}" + tail;
    FormatNoBraces(tail, ids);
    FormatEscapes(tail, ids);
    assert Format(closing, ids) == Ok("}" + tail);
    FormatEscapes(closing, ids);
    assert "{{}}" + tail == "{{" + closing;
    assert "{" + ("}" + tail) == "{}" + tail;
  }

  /** A template with one field between brace-free texts and an escaped
      `{{}}` after it formats to those texts around the field's value and a
      literal `{}`. */
  lemma FormatFieldThenEscapedPair(head: string, name: string, middle: string, tail: string,
                                   ids: map<string, string>)
    requires NoBraces(head) && NoBraces(middle) && NoBraces(tail)
    requires name in ids && NoBraces(name) && IsPlainField(name) && !IsPositional(name)
    requires !TooManyDigits(name)
    ensures Format(head + (("{" + name + "}") + (middle + ("{{}}" + tail))), ids)
         == Ok(head + (ids[name] + (middle + ("{}" + tail))))
  {
    var afterField := middle + ("{{}}" + tail);
    FormatEscapedPair(tail, ids);
    FormatLiteral(middle, "{{}}" + tail, ids);
    FormatField(name, afterField, ids);
    FormatLiteral(head, ("{" + name + "}") + afterField, ids);
  }
}

=== FILE: wrappers.dfy ===
/** Failure-carrying datatypes shared by the model. */
module Wrappers {

  /** A value that may be absent; Python's `None` versus a value. */
  datatype Option<+T> = None | Some(value: T)

  /** The outcome of a Python call that either returns a value or raises an
      exception whose message is `error`. */
  datatype Result<+T> = Ok(value: T) | Raised(error: string)
}
